=== FILE: README.md ===
# EcoSpace air-quality core, modelled in Dafny

EcoSpace is a demonstration dashboard. It shows a world map with sample cities. A user can click any point and see mock air-quality readings and a seven-day forecast for it. Behind the presentation sit a few pieces of pure logic, and this project models them:

- **The AQI scale.** Readings fall into six categories of the US EPA Air Quality Index: Good, Moderate, Unhealthy for Sensitive Groups, Unhealthy, Very Unhealthy and Hazardous. The breakpoints are 50, 100, 150, 200 and 300. Each band's upper end is inclusive, and the last band has no upper end. Each band has a label, a health description and a hex colour. The application writes the threshold chain out three times: the card's `getAQIInfo`, the card's `getAQIColor` and the map's `getAQIColor`. The model keeps all three chains as written. It proves each one equal to a single reference classifier (`AqiScale.BandOf`). That classifier counts how many breakpoints lie strictly below the reading.
- **The map.** It holds a fixed table of eight sample cities, each with a reading and a stored category text. Each city gets a marker and a popup, both coloured by `getAQIColor`. When the user clicks a point, the map picks a display name for it.
- **The API route.** `GET /api/air-quality` rejects a request that lacks `lat` or `lng`. Otherwise it returns a mock reading and a server-side seven-day forecast.
- **The chart.** The forecast chart has its own seven-day generator and a three-way trend rule.

Modelling choices:

- A JavaScript `number` is an exact `real`. `Math.floor` is `.Floor`. `Math.round` is `floor(x + 0.5)`, which rounds halves towards +infinity. `Math.max(lo, Math.min(hi, x))` is `JsRuntime.Clamp`.
- `Math.random()` becomes an explicit `seq<real>` of draws, each in [0, 1), consumed in the order the source evaluates the calls. Each generator is therefore a pure function of its draws.
- The route's forecast uses 1 + 3 × 7 = 22 draws. `GET` first uses 11 draws: the reading, six pollutants and four weather values. So one request uses 33 draws. The chart uses 2 + 7 = 9 draws.
- A query parameter or geocoding field that can be missing is a `JsRuntime.Nullable<string>`. In JavaScript `!value` is true (the value is falsy) both for a missing value and for `""`. The model writes this as `JsRuntime.Truthy`.
- Further facts about the code that the model keeps:
  - Negative readings are not clamped; every reading at or below 50, negative ones included, is "Good".
  - Neither `generateForecastData` takes a base-reading parameter; each draws its base itself.
  - The route's generator uses 22 draws: one for the base and three per day.
  - The route computes pm2.5 from the clamped, unrounded reading. This equals the raw reading because that clamp never acts.
  - The route rounds each forecast reading to an integer; the chart keeps the unrounded values.
- The route's inline comment says confidence is "85-95". `Math.floor(r * 10) + 85` never reaches 95, and the model proves the range is [85, 94].
- In the route, the aqi clamp never acts, but the pm2.5 clamp does at both ends. `AirQualityRoute.Pm25ClampCanBind` gives draws, the base draw included, that reach each end. In the chart, neither clamp ever acts.

## Model

| member | source | states |
|---|---|---|
| AqiScale.BandOf | app/components/AirQualityCard.tsx:12-55 | the reference classifier (a rank equal to the number of breakpoints below the reading) always returns a band whose interval (previous breakpoint, own breakpoint] contains the reading |
| AqiScale.CountBelow | app/components/AirQualityCard.tsx:13-41 | for ascending thresholds, the breakpoints below a reading are exactly a prefix: all before the count are below it, all from the count on are at or above it |
| AqiScale.InBandUnique | app/components/AirQualityCard.tsx:12-55 | no reading lies in two bands |
| AqiScale.InBandExactly | app/components/AirQualityCard.tsx:12-55 | classification is total and unique: a reading is in band b if and only if b is the reference classifier's answer |
| AqiScale.BandOfByThresholds | app/components/AirQualityCard.tsx:13-54 | the reference classifier agrees with the inclusive upper thresholds 50/100/150/200/300 interval by interval, with everything above 300 Hazardous |
| AqiScale.CountBelowMonotone | app/components/AirQualityCard.tsx:13-47 | a larger reading exceeds at least as many breakpoints |
| AqiScale.BandMonotone | app/components/AirQualityCard.tsx:12-55 | if a ≤ c, the band rank of a is at most the band rank of c |
| AqiScale.Describe | app/components/AirQualityCard.tsx:12-55 | the record's label names its band: no other band carries the same label, so the record identifies the band |
| AqiScale.Label | app/components/AirQualityCard.tsx:14-49 | the six category labels, each non-empty, exactly as the card spells them |
| AqiScale.Guidance | app/components/AirQualityCard.tsx:18-53 | the six health descriptions, each ending in a full stop |
| AqiScale.Swatch | app/components/AirQualityCard.tsx:58-63 | the six band colours, each a well-formed `#RRGGBB` hex colour |
| AqiScale.LabelIdentifiesBand | app/components/AirQualityCard.tsx:13-54 | the six labels are pairwise distinct |
| AqiScale.SwatchIdentifiesBand | app/components/AirQualityCard.tsx:58-63 | the six colours #00E400 … #7E0023 are pairwise distinct, so a colour identifies its band |
| AirQualityCard.GetAqiInfo | app/components/AirQualityCard.tsx:12-55 | the label chain returns the label and description of the reference band of every reading, including negative ones; every reading ≤ 50 is Good and every reading > 300 is Hazardous, with no upper cap |
| AirQualityCard.GetAqiColor | app/components/AirQualityCard.tsx:57-64 | the colour chain returns the reference band's colour for every reading |
| AirQualityCard.InfoIffInBand | app/components/AirQualityCard.tsx:12-55 | the card shows band b's text exactly when the reading lies in b's interval |
| AirQualityCard.ColorAgreesWithInfo | app/components/AirQualityCard.tsx:12-64 | the colour chain and the label chain pick the same band for every reading |
| AirQualityCard.InfoMonotone | app/components/AirQualityCard.tsx:12-55 | a larger reading never gets a less severe label |
| AirQualityCard.BoundariesInclusiveAbove | app/components/AirQualityCard.tsx:13-54 | each band's upper end belongs to it and the next integer to the next band: 50→Good, 51→Moderate, 100→Moderate, 101→USG, 150→USG, 151→Unhealthy, 200→Unhealthy, 201→Very Unhealthy, 300→Very Unhealthy, 301→Hazardous; and -5→Good |
| AirQualityCard.MockAqi | app/components/AirQualityCard.tsx:85 | the card's mock reading lies in [20, 219], so the card never shows Hazardous |
| AirQualityMap.GetAqiColor | app/components/AirQualityMap.tsx:65-72 | the map's copy of the colour chain returns the same colour as the card's for every reading |
| AirQualityMap.SampleQualitiesMatchClassifier | app/components/AirQualityMap.tsx:54-63 | each sample city's stored category text is the classifier's label for its reading |
| AirQualityMap.SamplesNeverHazardous | app/components/AirQualityMap.tsx:54-72 | every sample reading is ≤ 300, and no sample gets the Hazardous colour |
| AirQualityMap.GetAqiIcon | app/components/AirQualityMap.tsx:74-88 | the marker icon is filled with the reading's band colour and shows the reading |
| AirQualityMap.MarkerFor | app/components/AirQualityMap.tsx:123-151 | a city's marker fill and popup swatch are the same colour, namely its band colour |
| AirQualityMap.Markers | app/components/AirQualityMap.tsx:123-151 | one marker per sample city, in table order: marker i is the one built from city i, with that city's position, title, reading, quality and band colour; marker and swatch agree and none is Hazardous |
| AirQualityMap.CoordinateName | app/components/AirQualityMap.tsx:33 | the coordinate fallback is the formatted latitude, then ", ", then the formatted longitude, so it is never empty |
| AirQualityMap.LocationName | app/components/AirQualityMap.tsx:26-48 | the display name is never empty. It is the locality if that is non-empty, else the subdivision or the coordinate fallback. A failed lookup gives the coordinate fallback |
| AirQualityMap.LocationNamePriority | app/components/AirQualityMap.tsx:33 | the subdivision is used exactly when the locality is missing or empty; the coordinates when both are |
| AirQualityRoute.MockAqi | app/api/air-quality/route.ts:22 | the route's own mock reading, from the handler's first draw, lies in [20, 219] and its band is never Hazardous |
| AirQualityRoute.BaseAqi | app/api/air-quality/route.ts:51 | the forecast base reading lies in [30, 129] |
| AirQualityRoute.RawAqi | app/api/air-quality/route.ts:57-58 | the unclamped reading of day i lies within 10 of base + 2i, the noise `(r - 0.5) * 20` being in [-10, 10) |
| AirQualityRoute.RawAqiInsideClamp | app/api/air-quality/route.ts:51-58 | with base in [30, 129] and variation in [-10, 10), the unclamped reading lies in [20, 151), so the clamp to [10, 300] returns it unchanged |
| AirQualityRoute.ForecastDay | app/api/air-quality/route.ts:57-64 | one day's point has aqi = the nearest integer to the unclamped reading, within [10, 300]. Its pm25 is in [5, 50], computed from the unrounded reading. Its confidence is in [85, 94] |
| AirQualityRoute.GenerateForecastData | app/api/air-quality/route.ts:49-69 | exactly 7 points, day offsets 0..6 in loop order, each within the published bounds; day i's aqi is the nearest integer to the raw reading from the base draw d[0] and variation draw d[1 + 3i], its pm25 uses noise draw d[2 + 3i], its confidence draw d[3 + 3i] |
| AirQualityRoute.ForecastDependsOnPrefix | app/api/air-quality/route.ts:49-69 | two draw sequences that agree on their first 22 draws give identical forecasts |
| AirQualityRoute.Pm25ClampCanBind | app/api/air-quality/route.ts:57-63 | the pm2.5 clamp does act: the base draws 0.0 and 0.99 give the extreme bases 30 and 129, and from them some draws give 1.0 before the clamp (result 5.0), others give more than 50.0 (result 50.0) |
| AirQualityRoute.ConfidenceBelow95 | app/api/air-quality/route.ts:64 | confidence 95 is unreachable despite the "85-95" comment |
| AirQualityRoute.Get | app/api/air-quality/route.ts:3-47 | a 400 error is returned exactly when lat or lng is missing (Absent) or the empty string. Otherwise the reply's reading is the mock reading `Math.floor(r * 200) + 20` of the first draw, in [20, 219] and never Hazardous, and a 7-point forecast from the draws after the first 11 |
| AirQualityRoute.EmptyParameterIsMissing | app/api/air-quality/route.ts:8-10 | an empty lat or lng is treated exactly like a missing one |
| ForecastChart.BaseAqi | app/components/ForecastChart.tsx:40 | the chart's base reading lies in [30, 129] |
| ForecastChart.BasePm25 | app/components/ForecastChart.tsx:41 | the chart's base pm2.5 lies in [10, 39] |
| ForecastChart.Variation | app/components/ForecastChart.tsx:49 | each day's shared variation lies in [-10, 10) |
| ForecastChart.ChartAqi | app/components/ForecastChart.tsx:50 | each chart reading lies in [20, 151) and equals base + variation + 2i, so the clamp to [10, 300] never acts |
| ForecastChart.ChartPm25 | app/components/ForecastChart.tsx:51 | each chart pm2.5 lies in [5, 50) and equals basePm25 + variation/2 + i, so the clamp to [5, 50] never acts |
| ForecastChart.GenerateForecastData | app/components/ForecastChart.tsx:36-55 | days, aqiData and pm25Data each have exactly 7 entries, days in order 0..6, every value within its clamp bounds; day i's aqi is base(d[0]) + variation(d[2 + i]) + 2i and its pm25 is basePm25(d[1]) + variation(d[2 + i])/2 + i |
| ForecastChart.Pm25TracksAqi | app/components/ForecastChart.tsx:49-51 | the aqi and pm2.5 of one day share a draw: the pm2.5 offset is exactly half the aqi offset |
| ForecastChart.ClassifyTrend | app/components/ForecastChart.tsx:197-203 | exactly one of three outcomes: stable iff the change is strictly between -5 and 5, increasing iff it is ≥ 5, improving iff it is ≤ -5 |
| ForecastChart.GetTrendAnalysis | app/components/ForecastChart.tsx:192-204 | the trend is stated in terms of the first and last day's readings only |
| ForecastChart.TrendDependsOnlyOnChange | app/components/ForecastChart.tsx:193-195 | two series with the same last-minus-first change get the same trend |
| ForecastChart.TrendAntisymmetric | app/components/ForecastChart.tsx:197-203 | negating the change swaps increasing and improving and leaves stable unchanged |
| ForecastChart.GeneratedChangeRange | app/components/ForecastChart.tsx:43-52 | on a generated chart the last-minus-first change lies in (-8, 32) |
| ForecastChart.EveryTrendOccurs | app/components/ForecastChart.tsx:192-204 | each of the three outcomes is produced by some draw sequence |
| JsRuntime.RandomInt | app/api/air-quality/route.ts:51 | `Math.floor(r * n) + lo` with r in [0, 1) is the integer k in [lo, lo + n) with k - lo ≤ r·n < k - lo + 1 |
| JsRuntime.Round | app/api/air-quality/route.ts:62 | `Math.round(x)` is the integer within half a unit of x, halves rounded up |
| JsRuntime.Clamp | app/api/air-quality/route.ts:58 | the clamp lies in [lo, hi], is the identity inside it and returns the nearer end outside it |
| JsRuntime.CenteredDraw | app/api/air-quality/route.ts:57 | `(r - 0.5) * span` with r in [0, 1) lies in [-span/2, span/2) |

## Left out

- Rendering: all JSX, Tailwind class strings and layout in every component, `app/page.tsx` and `app/layout.tsx`. `getAQIInfo` also returns three Tailwind class strings per band. The model keeps only the label and the description.
- The Leaflet map, the tile layer, and the SVG and base64 construction inside `getAQIIcon`. These are calls into a foreign library. The model keeps the icon's fill colour and the number drawn on it.
- All `fetch` calls, including the reverse-geocoding request and the page's call to the route. A failed lookup is the `Absent` reply of `AirQualityMap.LocationName`.
- `NextRequest`/`NextResponse` plumbing. `GET` is modelled only as "query parameters → 400 error or data".
- `parseFloat` of the coordinates in the reply.
- The route's 500 path: no step of its `try` block can throw in the model.
- Dates and formatting: `Date`, `toLocaleDateString`, `toISOString` and `toFixed` depend on the clock and locale, or render floats as text. Forecast dates are kept as day offsets 0..6. The coordinate fallback name is built from the two already-formatted numbers.
- The pollutant and weather values of the card and the route (pm25, pm10, o3, no2, so2, co, temperature, humidity, wind speed, visibility). They are display-only values: nothing else in the core reads them. The route still consumes their 10 draws, so the forecast's draws sit at the right positions.
- `Math.random()` itself. It is replaced by the draw sequence. A generator's `requires` asks for enough draws, because `Math.random()` never runs out.
- Floating-point effects, including NaN. With NaN every `<=` test is false, so the chains would answer Hazardous. Exact reals have no NaN.
- ForecastChart.GetTrendAnalysis: requires exactly seven readings. The chart only ever passes its own seven-entry series, so shorter arrays (which would read `undefined`) are not modelled.
- The trend's message and colour strings. They are fixed per outcome and the model keeps only the outcome. The chart's `Math.round` of the first and last readings for display is left out too.
- The Chart.js configuration and tooltip callbacks in `ForecastChart.tsx`. They are a library config object.
- `AlertModal.tsx`, `CommunityInsights.tsx` and `LoadingSpinner.tsx`: UI state, timers, static arrays and random counters.
- `tailwind.config.js` and `next.config.js`: build configuration.
- The commented-out NASA API example in the route. It is dead code and network I/O.

=== FILE: air_quality_card.dfy ===
/**
 The air-quality card: its own threshold chains for the category text and the swatch
 colour, and the mock AQI reading it displays.
 */
module AirQualityCard {
  import opened JsRuntime
  import opened AqiScale

  /** `getAQIInfo`: the category text for a reading, by upward threshold comparison. */
  function GetAqiInfo(aqi: real): (info: AqiInfo)
    ensures info == Describe(BandOf(aqi))
    ensures aqi <= 50.0 ==> info.category == "Good"
    ensures aqi > 300.0 ==> info.category == "Hazardous"
  {
    BandOfByThresholds(aqi);
    if aqi <= 50.0 then Describe(Good)
    else if aqi <= 100.0 then Describe(Moderate)
    else if aqi <= 150.0 then Describe(SensitiveGroups)
    else if aqi <= 200.0 then Describe(Unhealthy)
    else if aqi <= 300.0 then Describe(VeryUnhealthy)
    else Describe(Hazardous)
  }

  /** `getAQIColor`: the swatch colour for a reading, by its own copy of the thresholds. */
  function GetAqiColor(aqi: real): (c: string)
    ensures c == Swatch(BandOf(aqi))
  {
    BandOfByThresholds(aqi);
    if aqi <= 50.0 then "#00E400"
    else if aqi <= 100.0 then "#FFFF00"
    else if aqi <= 150.0 then "#FF7E00"
    else if aqi <= 200.0 then "#FF0000"
    else if aqi <= 300.0 then "#8F3F97"
    else "#7E0023"
  }

  /** A label belongs to a reading exactly when the reading lies in that label's band. */
  lemma InfoIffInBand(aqi: real, b: Band)
    ensures GetAqiInfo(aqi) == Describe(b) <==> InBand(aqi, b)
  {
    InBandExactly(aqi, b);
    LabelIdentifiesBand(b, BandOf(aqi));
  }

  /** The colour chain and the label chain never disagree on the band of a reading. */
  lemma ColorAgreesWithInfo(aqi: real, b: Band)
    ensures GetAqiColor(aqi) == Swatch(b) <==> GetAqiInfo(aqi) == Describe(b)
  {
    SwatchIdentifiesBand(b, BandOf(aqi));
    LabelIdentifiesBand(b, BandOf(aqi));
  }

  /** Severity never decreases as the reading grows. */
  lemma InfoMonotone(a: real, c: real, ba: Band, bc: Band)
    requires a <= c
    requires GetAqiInfo(a) == Describe(ba) && GetAqiInfo(c) == Describe(bc)
    ensures Rank(ba) <= Rank(bc)
  {
    InfoIffInBand(a, ba);
    InfoIffInBand(c, bc);
    InBandExactly(a, ba);
    InBandExactly(c, bc);
    BandMonotone(a, c);
  }

  /** Each band's upper end belongs to it; the next integer belongs to the next band. */
  lemma BoundariesInclusiveAbove()
    ensures GetAqiInfo(50.0) == Describe(Good) && GetAqiInfo(51.0) == Describe(Moderate)
    ensures GetAqiInfo(100.0) == Describe(Moderate) && GetAqiInfo(101.0) == Describe(SensitiveGroups)
    ensures GetAqiInfo(150.0) == Describe(SensitiveGroups) && GetAqiInfo(151.0) == Describe(Unhealthy)
    ensures GetAqiInfo(200.0) == Describe(Unhealthy) && GetAqiInfo(201.0) == Describe(VeryUnhealthy)
    ensures GetAqiInfo(300.0) == Describe(VeryUnhealthy) && GetAqiInfo(301.0) == Describe(Hazardous)
    ensures GetAqiInfo(-5.0) == Describe(Good)
  {
  }

  /** The card's mock reading, `Math.floor(Math.random() * 200) + 20`. */
  function MockAqi(r: real): (aqi: int)
    requires IsDraw(r)
    ensures 20 <= aqi <= 219
    ensures GetAqiInfo(aqi as real) != Describe(Hazardous)
  {
    RandomInt(r, 200, 20)
  }
}

=== FILE: air_quality_map.dfy ===
/**
 The world map: its second copy of the colour chain, the hard-coded sample cities with
 their markers and popups, and the choice of a display name for a clicked point.
 */
module AirQualityMap {
  import opened JsRuntime
  import opened AqiScale
  import AirQualityCard

  /** The map's own `getAQIColor`, written out again with the same thresholds. */
  function GetAqiColor(aqi: real): (c: string)
    ensures c == AirQualityCard.GetAqiColor(aqi)
    ensures c == Swatch(BandOf(aqi))
  {
    BandOfByThresholds(aqi);
    if aqi <= 50.0 then "#00E400"
    else if aqi <= 100.0 then "#FFFF00"
    else if aqi <= 150.0 then "#FF7E00"
    else if aqi <= 200.0 then "#FF0000"
    else if aqi <= 300.0 then "#8F3F97"
    else "#7E0023"
  }

  /** One entry of the sample table: a city, its reading and the category text stored with it. */
  datatype SampleLocation = SampleLocation(lat: real, lng: real, name: string, aqi: int, quality: string)

  const SampleLocations: seq<SampleLocation> := [
    SampleLocation(40.7128, -74.0060, "New York City", 45, "Good"),
    SampleLocation(34.0522, -118.2437, "Los Angeles", 78, "Moderate"),
    SampleLocation(51.5074, -0.1278, "London", 32, "Good"),
    SampleLocation(35.6762, 139.6503, "Tokyo", 89, "Moderate"),
    SampleLocation(39.9042, 116.4074, "Beijing", 156, "Unhealthy"),
    SampleLocation(28.6139, 77.2090, "New Delhi", 234, "Very Unhealthy"),
    SampleLocation(-23.5505, -46.6333, "São Paulo", 67, "Moderate"),
    SampleLocation(-33.8688, 151.2093, "Sydney", 23, "Good")
  ]

  /** The stored category of every sample city is the one the classifier gives its reading. */
  lemma SampleQualitiesMatchClassifier()
    ensures forall i :: 0 <= i < |SampleLocations| ==>
      SampleLocations[i].quality == AirQualityCard.GetAqiInfo(SampleLocations[i].aqi as real).category
  {
    forall i | 0 <= i < |SampleLocations|
      ensures SampleLocations[i].quality == AirQualityCard.GetAqiInfo(SampleLocations[i].aqi as real).category
    {
      var loc := SampleLocations[i];
      BandOfByThresholds(loc.aqi as real);
      assert loc.quality == Label(BandOf(loc.aqi as real));
    }
  }

  /** No sample city is Hazardous, so no marker carries the Hazardous colour. */
  lemma SamplesNeverHazardous()
    ensures forall i :: 0 <= i < |SampleLocations| ==>
      SampleLocations[i].aqi <= 300 && GetAqiColor(SampleLocations[i].aqi as real) != Swatch(Hazardous)
  {
  }

  /** The parts of `getAQIIcon`'s marker the model keeps: the fill colour and the number drawn on it. */
  datatype MarkerIcon = MarkerIcon(fill: string, text: int)

  function GetAqiIcon(aqi: int): (icon: MarkerIcon)
    ensures icon.fill == Swatch(BandOf(aqi as real))
    ensures icon.text == aqi
  {
    MarkerIcon(GetAqiColor(aqi as real), aqi)
  }

  /** A sample city as the map renders it: a marker, and a popup with a colour swatch. */
  datatype Marker = Marker(lat: real, lng: real, icon: MarkerIcon,
                           title: string, swatch: string, reading: int, quality: string)

  function MarkerFor(loc: SampleLocation): (m: Marker)
    ensures m.icon.fill == m.swatch
    ensures m.swatch == Swatch(BandOf(loc.aqi as real))
    ensures m.icon.text == m.reading == loc.aqi
  {
    Marker(loc.lat, loc.lng, GetAqiIcon(loc.aqi), loc.name, GetAqiColor(loc.aqi as real), loc.aqi, loc.quality)
  }

  /** All markers of the map: one per sample city, in table order, popup and marker agreeing. */
  function Markers(): (ms: seq<Marker>)
    ensures |ms| == |SampleLocations|
    ensures forall i :: 0 <= i < |ms| ==> ms[i] == MarkerFor(SampleLocations[i])
    ensures forall i :: 0 <= i < |ms| ==>
      ms[i].icon.fill == ms[i].swatch && ms[i].swatch != Swatch(Hazardous) && ms[i].title == SampleLocations[i].name
  {
    SamplesNeverHazardous();
    seq(|SampleLocations|, i requires 0 <= i < |SampleLocations| => MarkerFor(SampleLocations[i]))
  }

  /** The part of the reverse-geocoding reply the map reads. */
  datatype Geocode = Geocode(locality: Nullable<string>, principalSubdivision: Nullable<string>)

  /** The coordinate fallback `${lat.toFixed(2)}, ${lng.toFixed(2)}`, from the two formatted numbers. */
  function CoordinateName(latText: string, lngText: string): (name: string)
    ensures |name| == |latText| + 2 + |lngText|
    ensures name[..|latText|] == latText
    ensures name[|latText|..|latText| + 2] == ", "
    ensures name[|latText| + 2..] == lngText
  {
    latText + ", " + lngText
  }

  /**
   The display name of a clicked point. `reply` is Absent when the lookup request failed
   (the catch path); otherwise the locality, else the principal subdivision, else the coordinates.
   */
  function LocationName(reply: Nullable<Geocode>, latText: string, lngText: string): (name: string)
    ensures name != ""
    ensures name == CoordinateName(latText, lngText)
            || (reply.Present? && Truthy(reply.value.locality) && name == reply.value.locality.value)
            || (reply.Present? && Truthy(reply.value.principalSubdivision) && name == reply.value.principalSubdivision.value)
    ensures reply.Absent? ==> name == CoordinateName(latText, lngText)
    ensures reply.Present? && Truthy(reply.value.locality) ==> name == reply.value.locality.value
  {
    match reply
    case Absent => CoordinateName(latText, lngText)
    case Present(g) =>
      if Truthy(g.locality) then g.locality.value
      else if Truthy(g.principalSubdivision) then g.principalSubdivision.value
      else CoordinateName(latText, lngText)
  }

  /** The subdivision is used only when the locality is missing or empty, and the coordinates only when both are. */
  lemma LocationNamePriority(g: Geocode, latText: string, lngText: string)
    ensures !Truthy(g.locality) && Truthy(g.principalSubdivision) ==>
      LocationName(Present(g), latText, lngText) == g.principalSubdivision.value
    ensures !Truthy(g.locality) && !Truthy(g.principalSubdivision) ==>
      LocationName(Present(g), latText, lngText) == CoordinateName(latText, lngText)
  {
  }
}

=== FILE: air_quality_route.dfy ===
/**
 The mock `GET /api/air-quality` handler: the validation of its two required query parameters,
 the top-level mock reading, and the server-side seven-day forecast generator.

 Every `Math.random()` call is one element of the draw sequence, taken in the order the
 handler evaluates them.
 */
module AirQualityRoute {
  import opened JsRuntime
  import opened AqiScale
  import AirQualityCard

  /** One forecast day. `dayOffset` stands for the date string, which is today plus that many days. */
  datatype ForecastPoint = ForecastPoint(dayOffset: nat, aqi: int, pm25: real, confidence: int)

  const ForecastDays: nat := 7

  /** One draw for the base reading, then three per day: variation, pm2.5 noise, confidence. */
  const ForecastDrawCount: nat := 1 + 3 * ForecastDays

  /** The top-level mock reading `Math.floor(Math.random() * 200) + 20`, the handler's first draw. */
  function MockAqi(r: real): (aqi: int)
    requires IsDraw(r)
    ensures 20 <= aqi <= 219
    ensures BandOf(aqi as real) != Hazardous
  {
    var aqi := RandomInt(r, 200, 20);
    BandOfByThresholds(aqi as real);
    aqi
  }

  /** `Math.floor(Math.random() * 100) + 30`. */
  function BaseAqi(r: real): (base: int)
    requires IsDraw(r)
    ensures 30 <= base <= 129
  {
    RandomInt(r, 100, 30)
  }

  /** The reading of day `i` before the clamp: base plus noise plus a drift of two per day. */
  function RawAqi(base: int, i: nat, rVariation: real): (raw: real)
    requires IsDraw(rVariation)
    ensures (base as real) + 2.0 * (i as real) - 10.0 <= raw < (base as real) + 2.0 * (i as real) + 10.0
  {
    (base as real) + CenteredDraw(rVariation, 20.0) + 2.0 * (i as real)
  }

  /** With the base and noise the generator draws, the raw reading already lies inside [10, 300]. */
  lemma RawAqiInsideClamp(base: int, i: nat, rVariation: real)
    requires 30 <= base <= 129 && i < ForecastDays && IsDraw(rVariation)
    ensures 20.0 <= RawAqi(base, i, rVariation) < 151.0
    ensures Clamp(10.0, 300.0, RawAqi(base, i, rVariation)) == RawAqi(base, i, rVariation)
  {
  }

  /** The body of the generator's loop for day `i`, given that day's three draws. */
  function ForecastDay(base: int, i: nat, rVariation: real, rPm25: real, rConfidence: real): (p: ForecastPoint)
    requires 30 <= base <= 129 && i < ForecastDays
    requires IsDraw(rVariation) && IsDraw(rPm25) && IsDraw(rConfidence)
    ensures p.dayOffset == i
    ensures 10 <= p.aqi <= 300
    ensures (p.aqi as real) - 0.5 <= RawAqi(base, i, rVariation) < (p.aqi as real) + 0.5
    ensures 5.0 <= p.pm25 <= 50.0
    ensures p.pm25 == Clamp(5.0, 50.0, RawAqi(base, i, rVariation) * 0.3 + CenteredDraw(rPm25, 10.0))
    ensures 85 <= p.confidence <= 94
  {
    RawAqiInsideClamp(base, i, rVariation);
    var aqi := Clamp(10.0, 300.0, RawAqi(base, i, rVariation));
    ForecastPoint(
      i,
      Round(aqi),
      Clamp(5.0, 50.0, aqi * 0.3 + CenteredDraw(rPm25, 10.0)),
      RandomInt(rConfidence, 10, 85))
  }

  /** `generateForecastData`: seven days in loop order, computed from the first 22 draws of `d`. */
  function GenerateForecastData(d: seq<real>): (f: seq<ForecastPoint>)
    requires AllDraws(d) && |d| >= ForecastDrawCount
    ensures |f| == ForecastDays
    ensures forall i :: 0 <= i < |f| ==> f[i].dayOffset == i
    ensures forall i :: 0 <= i < |f| ==>
      && 10 <= f[i].aqi <= 300
      && 5.0 <= f[i].pm25 <= 50.0
      && 85 <= f[i].confidence <= 94
    ensures forall i :: 0 <= i < |f| ==>
      && (f[i].aqi as real) - 0.5 <= RawAqi(BaseAqi(d[0]), i, d[1 + 3 * i]) < (f[i].aqi as real) + 0.5
      && f[i].pm25 == Clamp(5.0, 50.0, RawAqi(BaseAqi(d[0]), i, d[1 + 3 * i]) * 0.3 + CenteredDraw(d[2 + 3 * i], 10.0))
      && f[i].confidence == RandomInt(d[3 + 3 * i], 10, 85)
  {
    var base := BaseAqi(d[0]);
    var f := seq(ForecastDays, i requires 0 <= i < ForecastDays =>
      ForecastDay(base, i, d[1 + 3 * i], d[2 + 3 * i], d[3 + 3 * i]));
    assert forall i :: 0 <= i < ForecastDays ==> f[i] == ForecastDay(base, i, d[1 + 3 * i], d[2 + 3 * i], d[3 + 3 * i]);
    f
  }

  /** The forecast is a function of its first 22 draws alone: later draws change nothing. */
  lemma ForecastDependsOnPrefix(d1: seq<real>, d2: seq<real>)
    requires AllDraws(d1) && |d1| >= ForecastDrawCount
    requires AllDraws(d2) && |d2| >= ForecastDrawCount
    requires d1[..ForecastDrawCount] == d2[..ForecastDrawCount]
    ensures GenerateForecastData(d1) == GenerateForecastData(d2)
  {
  }

  /** Unlike the aqi clamp, the pm2.5 clamp does act: at both ends some draws push past it. */
  lemma Pm25ClampCanBind()
    ensures BaseAqi(0.0) == 30 && BaseAqi(0.99) == 129
    ensures 0.3 * RawAqi(30, 0, 0.0) + CenteredDraw(0.0, 10.0) == 1.0
    ensures ForecastDay(30, 0, 0.0, 0.0, 0.0).pm25 == 5.0
    ensures 0.3 * RawAqi(129, 6, 0.99) + CenteredDraw(0.99, 10.0) > 50.0
    ensures ForecastDay(129, 6, 0.99, 0.99, 0.0).pm25 == 50.0
  {
  }

  /** The top-level confidence never reaches 95: `Math.floor(r * 10)` is at most 9. */
  lemma ConfidenceBelow95(base: int, i: nat, rVariation: real, rPm25: real, rConfidence: real)
    requires 30 <= base <= 129 && i < ForecastDays
    requires IsDraw(rVariation) && IsDraw(rPm25) && IsDraw(rConfidence)
    ensures ForecastDay(base, i, rVariation, rPm25, rConfidence).confidence != 95
  {
  }

  /** The query parameters the handler reads; each may be missing. */
  datatype Request = Request(lat: Nullable<string>, lng: Nullable<string>)

  /** The handler's reply: a 400 error, or the mock reading with its forecast. */
  datatype Response =
    | ErrorReply(status: int, error: string)
    | DataReply(aqi: int, forecast: seq<ForecastPoint>)

  /** Draws before the forecast: the reading, six pollutants, four weather values. */
  const ForecastDrawStart: nat := 11

  const RequestDrawCount: nat := ForecastDrawStart + ForecastDrawCount

  /** `GET`: reject a request lacking a non-empty `lat` or `lng`, otherwise build the mock reply. */
  function Get(req: Request, d: seq<real>): (resp: Response)
    requires AllDraws(d) && |d| >= RequestDrawCount
    ensures resp.ErrorReply? <==> req.lat in {Absent, Present("")} || req.lng in {Absent, Present("")}
    ensures resp.ErrorReply? ==> resp.status == 400 && resp.error == "Latitude and longitude are required"
    ensures resp.DataReply? ==>
      && resp.aqi == MockAqi(d[0])
      && 20 <= resp.aqi <= 219
      && AirQualityCard.GetAqiInfo(resp.aqi as real) != Describe(Hazardous)
      && |resp.forecast| == ForecastDays
      && resp.forecast == GenerateForecastData(d[ForecastDrawStart..])
  {
    if !Truthy(req.lat) || !Truthy(req.lng) then
      ErrorReply(400, "Latitude and longitude are required")
    else
      DataReply(MockAqi(d[0]), GenerateForecastData(d[ForecastDrawStart..]))
  }

  /** A parameter given as the empty string is treated exactly like a missing one. */
  lemma EmptyParameterIsMissing(lng: Nullable<string>, d: seq<real>)
    requires AllDraws(d) && |d| >= RequestDrawCount
    ensures Get(Request(Present(""), lng), d) == Get(Request(Absent, lng), d)
    ensures Get(Request(lng, Present("")), d) == Get(Request(lng, Absent), d)
  {
  }
}

=== FILE: aqi_scale.dfy ===
/**
 The six Air Quality Index categories of the US EPA uniform index, with the labels,
 health descriptions and marker colours the dashboard attaches to them, and a reference
 classifier against which the application's own threshold chains are checked.

 The reference classifier does not compare against the thresholds one by one: it counts
 how many breakpoints lie strictly below the value, and that count is the band's rank.
 */
module AqiScale {

  /** The categories, from least to most severe. */
  datatype Band = Good | Moderate | SensitiveGroups | Unhealthy | VeryUnhealthy | Hazardous

  /** The position of a band in the severity order. */
  function Rank(b: Band): (k: nat)
    ensures k < 6
  {
    match b
    case Good => 0
    case Moderate => 1
    case SensitiveGroups => 2
    case Unhealthy => 3
    case VeryUnhealthy => 4
    case Hazardous => 5
  }

  /** The band of a given rank; the inverse of Rank. */
  function BandAt(k: nat): (b: Band)
    requires k < 6
    ensures Rank(b) == k
  {
    if k == 0 then Good
    else if k == 1 then Moderate
    else if k == 2 then SensitiveGroups
    else if k == 3 then Unhealthy
    else if k == 4 then VeryUnhealthy
    else Hazardous
  }

  /** Inclusive upper ends of the first five bands; the last band is open-ended. */
  const Breakpoints: seq<int> := [50, 100, 150, 200, 300]

  predicate Ascending(s: seq<int>) {
    forall i, j :: 0 <= i < j < |s| ==> s[i] < s[j]
  }

  lemma BreakpointsAscending()
    ensures Ascending(Breakpoints)
  {
  }

  /** The number of breakpoints strictly below `a`; for ascending breakpoints they are a prefix. */
  function CountBelow(bps: seq<int>, a: real): (n: nat)
    requires Ascending(bps)
    ensures n <= |bps|
    ensures forall k :: 0 <= k < n ==> (bps[k] as real) < a
    ensures forall k :: n <= k < |bps| ==> a <= (bps[k] as real)
  {
    if |bps| == 0 then 0
    else (if (bps[0] as real) < a then 1 else 0) + CountBelow(bps[1..], a)
  }

  /** Band membership stated as an interval: above the previous band's end, at most its own. */
  predicate InBand(a: real, b: Band) {
    var k := Rank(b);
    && (k == 0 || (Breakpoints[k - 1] as real) < a)
    && (k == 5 || a <= (Breakpoints[k] as real))
  }

  /** The reference classifier: the band whose rank is the number of breakpoints below `a`. */
  function BandOf(a: real): (b: Band)
    ensures InBand(a, b)
  {
    BreakpointsAscending();
    BandAt(CountBelow(Breakpoints, a))
  }

  /** The bands partition the number line: no value lies in two of them. */
  lemma InBandUnique(a: real, b1: Band, b2: Band)
    requires InBand(a, b1) && InBand(a, b2)
    ensures b1 == b2
  {
  }

  /** Every value lies in exactly one band, and it is the one BandOf names. */
  lemma InBandExactly(a: real, b: Band)
    ensures InBand(a, b) <==> b == BandOf(a)
  {
  }

  /** The reference classifier read back as the five inclusive upper thresholds. */
  lemma BandOfByThresholds(a: real)
    ensures a <= 50.0 ==> BandOf(a) == Good
    ensures 50.0 < a <= 100.0 ==> BandOf(a) == Moderate
    ensures 100.0 < a <= 150.0 ==> BandOf(a) == SensitiveGroups
    ensures 150.0 < a <= 200.0 ==> BandOf(a) == Unhealthy
    ensures 200.0 < a <= 300.0 ==> BandOf(a) == VeryUnhealthy
    ensures 300.0 < a ==> BandOf(a) == Hazardous
  {
    var b := BandOf(a);
    if a <= 50.0 {
      InBandUnique(a, b, Good);
    } else if a <= 100.0 {
      InBandUnique(a, b, Moderate);
    } else if a <= 150.0 {
      InBandUnique(a, b, SensitiveGroups);
    } else if a <= 200.0 {
      InBandUnique(a, b, Unhealthy);
    } else if a <= 300.0 {
      InBandUnique(a, b, VeryUnhealthy);
    } else {
      InBandUnique(a, b, Hazardous);
    }
  }

  /** A larger value never lands in a less severe band. */
  lemma {:induction false} CountBelowMonotone(bps: seq<int>, a: real, c: real)
    requires Ascending(bps)
    requires a <= c
    ensures CountBelow(bps, a) <= CountBelow(bps, c)
  {
    if |bps| > 0 {
      CountBelowMonotone(bps[1..], a, c);
    }
  }

  lemma BandMonotone(a: real, c: real)
    requires a <= c
    ensures Rank(BandOf(a)) <= Rank(BandOf(c))
  {
    BreakpointsAscending();
    assert Rank(BandOf(a)) == CountBelow(Breakpoints, a);
    assert Rank(BandOf(c)) == CountBelow(Breakpoints, c);
    CountBelowMonotone(Breakpoints, a, c);
  }

  /** What the dashboard shows for a band: its label (`category`) and its health description. */
  datatype AqiInfo = AqiInfo(category: string, description: string)

  /** The record `getAQIInfo` returns for a band: the band's label with its health description. */
  function Describe(b: Band): (info: AqiInfo)
    ensures info.category == Label(b) && info.description == Guidance(b)
    ensures info.category != "" && info.description != ""
    ensures forall b' :: Label(b') == info.category ==> b' == b
  {
    LabelNamesBand(b);
    AqiInfo(Label(b), Guidance(b))
  }

  /** The category name shown on the card and stored in the map's sample table. */
  function Label(b: Band): (s: string)
    ensures s != ""
  {
    match b
    case Good => "Good"
    case Moderate => "Moderate"
    case SensitiveGroups => "Unhealthy for Sensitive Groups"
    case Unhealthy => "Unhealthy"
    case VeryUnhealthy => "Very Unhealthy"
    case Hazardous => "Hazardous"
  }

  /** The health guidance shown under the label, ending in a full stop. */
  function Guidance(b: Band): (s: string)
    ensures |s| > 0 && s[|s| - 1] == '.'
  {
    match b
    case Good => "Air quality is satisfactory, and air pollution poses little or no risk."
    case Moderate => "Air quality is acceptable. However, there may be a risk for some people."
    case SensitiveGroups => "Members of sensitive groups may experience health effects."
    case Unhealthy => "Everyone may begin to experience health effects."
    case VeryUnhealthy => "Health warnings of emergency conditions."
    case Hazardous => "Health alert: everyone may experience more serious health effects."
  }

  /** A CSS colour written `#RRGGBB` with upper-case hex digits. */
  predicate IsHexColour(c: string) {
    |c| == 7 && c[0] == '#' && forall i :: 1 <= i < 7 ==> c[i] in "0123456789ABCDEF"
  }

  /** The marker and swatch colour of a band, as a hex RGB string. */
  function Swatch(b: Band): (c: string)
    ensures IsHexColour(c)
  {
    match b
    case Good => "#00E400"
    case Moderate => "#FFFF00"
    case SensitiveGroups => "#FF7E00"
    case Unhealthy => "#FF0000"
    case VeryUnhealthy => "#8F3F97"
    case Hazardous => "#7E0023"
  }

  /** The six labels are pairwise distinct, so a label names its band. */
  lemma LabelIdentifiesBand(b1: Band, b2: Band)
    ensures Label(b1) == Label(b2) <==> b1 == b2
  {
  }

  /** No other band carries the label of `b`. */
  lemma LabelNamesBand(b: Band)
    ensures forall b' :: Label(b') == Label(b) ==> b' == b
  {
    forall b' ensures Label(b') == Label(b) ==> b' == b {
      LabelIdentifiesBand(b', b);
    }
  }

  /** The six colours are pairwise distinct, so a colour names its band. */
  lemma SwatchIdentifiesBand(b1: Band, b2: Band)
    ensures Swatch(b1) == Swatch(b2) <==> b1 == b2
  {
  }
}

=== FILE: forecast_chart.dfy ===
/**
 The forecast chart: its own seven-day generator for the AQI and PM2.5 lines, and the
 three-way trend message shown under the chart.
 */
module ForecastChart {
  import opened JsRuntime

  const ChartDays: nat := 7

  /** Two draws for the base values, then one per day shared by both lines. */
  const ChartDrawCount: nat := 2 + ChartDays

  /** The chart's data. `days` holds day offsets from today, standing for the formatted dates. */
  datatype ChartSeries = ChartSeries(days: seq<nat>, aqiData: seq<real>, pm25Data: seq<real>)

  /** `Math.floor(Math.random() * 100) + 30` and `Math.floor(Math.random() * 30) + 10`. */
  function BaseAqi(d: seq<real>): (base: int)
    requires AllDraws(d) && |d| >= ChartDrawCount
    ensures 30 <= base <= 129
  {
    RandomInt(d[0], 100, 30)
  }

  function BasePm25(d: seq<real>): (base: int)
    requires AllDraws(d) && |d| >= ChartDrawCount
    ensures 10 <= base <= 39
  {
    RandomInt(d[1], 30, 10)
  }

  /** `(Math.random() - 0.5) * 20` for day `i`: the one draw both lines of that day use. */
  function Variation(d: seq<real>, i: nat): (v: real)
    requires AllDraws(d) && |d| >= ChartDrawCount && i < ChartDays
    ensures -10.0 <= v < 10.0
  {
    CenteredDraw(d[2 + i], 20.0)
  }

  /** Day `i` of the AQI line, clamped to [10, 300]; the clamp never acts. */
  function ChartAqi(d: seq<real>, i: nat): (aqi: real)
    requires AllDraws(d) && |d| >= ChartDrawCount && i < ChartDays
    ensures 10.0 <= aqi <= 300.0
    ensures 20.0 <= aqi < 151.0
    ensures aqi == (BaseAqi(d) as real) + Variation(d, i) + 2.0 * (i as real)
  {
    Clamp(10.0, 300.0, (BaseAqi(d) as real) + Variation(d, i) + (i as real) * 2.0)
  }

  /** Day `i` of the PM2.5 line, clamped to [5, 50]; the clamp never acts. */
  function ChartPm25(d: seq<real>, i: nat): (pm25: real)
    requires AllDraws(d) && |d| >= ChartDrawCount && i < ChartDays
    ensures 5.0 <= pm25 <= 50.0
    ensures pm25 < 50.0
    ensures pm25 == (BasePm25(d) as real) + Variation(d, i) * 0.5 + (i as real)
  {
    Clamp(5.0, 50.0, (BasePm25(d) as real) + Variation(d, i) * 0.5 + (i as real) * 1.0)
  }

  /** The chart's `generateForecastData`: three parallel seven-entry lists, in day order. */
  function GenerateForecastData(d: seq<real>): (s: ChartSeries)
    requires AllDraws(d) && |d| >= ChartDrawCount
    ensures |s.days| == ChartDays && |s.aqiData| == ChartDays && |s.pm25Data| == ChartDays
    ensures forall i :: 0 <= i < ChartDays ==> s.days[i] == i
    ensures forall i :: 0 <= i < ChartDays ==> 10.0 <= s.aqiData[i] <= 300.0
    ensures forall i :: 0 <= i < ChartDays ==> 5.0 <= s.pm25Data[i] <= 50.0
    ensures forall i :: 0 <= i < ChartDays ==>
      s.aqiData[i] == ChartAqi(d, i) && s.pm25Data[i] == ChartPm25(d, i)
    ensures forall i :: 0 <= i < ChartDays ==>
      && s.aqiData[i] == (RandomInt(d[0], 100, 30) as real) + CenteredDraw(d[2 + i], 20.0) + 2.0 * (i as real)
      && s.pm25Data[i] == (RandomInt(d[1], 30, 10) as real) + CenteredDraw(d[2 + i], 20.0) * 0.5 + (i as real)
  {
    ChartSeries(
      seq(ChartDays, i requires 0 <= i < ChartDays => i),
      seq(ChartDays, i requires 0 <= i < ChartDays => ChartAqi(d, i)),
      seq(ChartDays, i requires 0 <= i < ChartDays => ChartPm25(d, i)))
  }

  /** The two lines move together: each day's PM2.5 offset is half that day's AQI offset. */
  lemma Pm25TracksAqi(d: seq<real>, i: nat)
    requires AllDraws(d) && |d| >= ChartDrawCount && i < ChartDays
    ensures var s := GenerateForecastData(d);
      s.pm25Data[i] - (BasePm25(d) as real) - (i as real)
        == (s.aqiData[i] - (BaseAqi(d) as real) - 2.0 * (i as real)) * 0.5
  {
  }

  /** The outcome of the trend rule. */
  datatype Trend = Stable | Increasing | Improving

  /** The three-way rule on the change from the first to the last day. */
  function ClassifyTrend(change: real): (t: Trend)
    ensures t == Stable <==> -5.0 < change < 5.0
    ensures t == Increasing <==> change >= 5.0
    ensures t == Improving <==> change <= -5.0
  {
    if Abs(change) < 5.0 then Stable
    else if change > 0.0 then Increasing
    else Improving
  }

  /** `getTrendAnalysis`: compares the last day's AQI with the first day's. */
  function GetTrendAnalysis(aqiData: seq<real>): (t: Trend)
    requires |aqiData| == ChartDays
    ensures t == Stable <==> Abs(aqiData[6] - aqiData[0]) < 5.0
    ensures t == Increasing <==> aqiData[6] >= aqiData[0] + 5.0
    ensures t == Improving <==> aqiData[6] <= aqiData[0] - 5.0
  {
    ClassifyTrend(aqiData[6] - aqiData[0])
  }

  /** Only the endpoints matter: two series with the same first-to-last change get the same trend. */
  lemma TrendDependsOnlyOnChange(a: seq<real>, b: seq<real>)
    requires |a| == ChartDays && |b| == ChartDays
    requires a[6] - a[0] == b[6] - b[0]
    ensures GetTrendAnalysis(a) == GetTrendAnalysis(b)
  {
  }

  /** The outcome for the reversed change: worsening and improving swap, stable stays. */
  function Mirror(t: Trend): (m: Trend)
    ensures m == Stable <==> t == Stable
    ensures t != Stable ==> m != t
  {
    match t
    case Stable => Stable
    case Increasing => Improving
    case Improving => Increasing
  }

  /** Reversing the change swaps worsening and improving and keeps stable. */
  lemma TrendAntisymmetric(change: real)
    ensures ClassifyTrend(-change) == Mirror(ClassifyTrend(change))
  {
  }

  /** On a generated chart the change lies in (-8, 32): the drift of 12 outweighs most noise. */
  lemma GeneratedChangeRange(d: seq<real>)
    requires AllDraws(d) && |d| >= ChartDrawCount
    ensures var s := GenerateForecastData(d);
      -8.0 < s.aqiData[6] - s.aqiData[0] < 32.0
  {
  }

  /** All three outcomes occur on generated charts. */
  lemma EveryTrendOccurs()
    ensures GetTrendAnalysis(GenerateForecastData([0.0, 0.0, 0.5, 0.5, 0.5, 0.5, 0.5, 0.5, 0.5]).aqiData) == Increasing
    ensures GetTrendAnalysis(GenerateForecastData([0.0, 0.0, 0.9, 0.5, 0.5, 0.5, 0.5, 0.5, 0.1]).aqiData) == Stable
    ensures GetTrendAnalysis(GenerateForecastData([0.0, 0.0, 0.95, 0.5, 0.5, 0.5, 0.5, 0.5, 0.05]).aqiData) == Improving
  {
  }
}

=== FILE: js_runtime.dfy ===
/**
 The small part of JavaScript's number and value semantics the EcoSpace core relies on:
 `Math.floor`, `Math.round`, `Math.min`/`Math.max` clamping, the truthiness of an optional
 string, and `Math.random()`, which is replaced by an explicit sequence of draws.
 A JavaScript `number` is modelled as an exact `real`; no floating-point effect is relied on.
 */
module JsRuntime {

  /** A value that may be `null`/`undefined` (Absent) or present. */
  datatype Nullable<T> = Absent | Present(value: T)

  /** `!!s` for a string that may be missing: false for a missing value and for "". */
  predicate Truthy(s: Nullable<string>): (b: bool)
    ensures b <==> s != Absent && s != Present("")
  {
    s.Present? && s.value != ""
  }

  /** One result of `Math.random()`: a number in the half-open interval [0, 1). */
  predicate IsDraw(r: real) {
    0.0 <= r < 1.0
  }

  /** A sequence of `Math.random()` results, consumed from the front. */
  predicate AllDraws(d: seq<real>) {
    forall i :: 0 <= i < |d| ==> IsDraw(d[i])
  }

  function Min(a: real, b: real): (m: real)
    ensures m <= a && m <= b
    ensures m == a || m == b
  {
    if a <= b then a else b
  }

  function Max(a: real, b: real): (m: real)
    ensures a <= m && b <= m
    ensures m == a || m == b
  {
    if a <= b then b else a
  }

  function Abs(x: real): (y: real)
    ensures 0.0 <= y
    ensures y == x || y == -x
  {
    if x < 0.0 then -x else x
  }

  /** `Math.max(lo, Math.min(hi, x))`: the value of `x` forced into [lo, hi]. */
  function Clamp(lo: real, hi: real, x: real): (y: real)
    requires lo <= hi
    ensures lo <= y <= hi
    ensures lo <= x <= hi ==> y == x
    ensures x < lo ==> y == lo
    ensures hi < x ==> y == hi
  {
    Max(lo, Min(hi, x))
  }

  /** `Math.round(x)`: the nearest integer, halves rounded towards +infinity. */
  function Round(x: real): (k: int)
    ensures (k as real) - 0.5 <= x < (k as real) + 0.5
  {
    (x + 0.5).Floor
  }

  /** `Math.floor(Math.random() * n) + lo`: a uniformly drawn integer in [lo, lo + n). */
  function RandomInt(r: real, n: nat, lo: int): (k: int)
    requires IsDraw(r)
    requires n > 0
    ensures lo <= k < lo + n
    ensures ((k - lo) as real) <= r * (n as real) < ((k - lo) as real) + 1.0
  {
    assert r * (n as real) < n as real by {
      assert (1.0 - r) * (n as real) > 0.0;
    }
    (r * (n as real)).Floor + lo
  }

  /** `(Math.random() - 0.5) * span`: noise centred on zero, in [-span/2, span/2). */
  function CenteredDraw(r: real, span: real): (v: real)
    requires IsDraw(r)
    requires span > 0.0
    ensures -span / 2.0 <= v < span / 2.0
  {
    assert (r - 0.5) * span < span / 2.0 by {
      assert (1.0 - r) * span > 0.0;
    }
    assert (r - 0.5) * span >= -span / 2.0 by {
      assert r * span >= 0.0;
    }
    (r - 0.5) * span
  }
}
